=== FILE: README.md ===
# Multi-client socket relay — Dafny model

This project models the core of a two-part chat relay written in Python.

- **server.py** runs a TCP relay. An accept loop registers each new connection in a shared client list. One handler per connection relays every message it reads to all other clients. A control route broadcasts a server message to all clients. Any client whose send fails is closed and pruned from the list, provided the `getpeername()` call in the error handler succeeds (see Findings).
- **client.py** is a client bridge. It holds one connection. A background receive loop appends every message, plus two fixed system notices, to an inbound queue, and the caller drains that queue.

Both scripts wrap this logic in Flask routes, threads and a lock. The model keeps only the state machine underneath:

- The relay state is `RelayServer.Server`: the client list, the `is_running` flag, and the listening socket.
- The bridge state is `ClientBridge.Client`: the `is_connected` flag, the socket, and the message queue.

Every region the source runs under its lock, and every route, is one atomic, pure transition. Sockets are bare identities (`nat`). Each socket outcome is an input to the transition:

- accept: new connection, timeout, or error;
- recv: data, empty read, error, or timeout;
- send: the set of sockets whose send fails;
- bind, listen and connect: success or failure.

Module layout:

- `results.dfy` (`Results`): Option/Result types, the route `Transition` record, and the truthiness test Python applies to query arguments.
- `seqs.dfy` (`Seqs`): duplicate-freedom, and `RemoveFirst` for Python's `list.remove`.
- `server.dfy` (`RelayServer`): fan-out, accept loop, handler, and the start/stop/broadcast routes.
- `client.dfy` (`ClientBridge`): receive loop, and the connect/disconnect/send/drain routes.
- `scenarios.dfy` (`Scenarios`): end-to-end runs across both.

The fan-out is modelled as the loop the source runs: over the snapshot `list(clients)`, with a membership-guarded remove on each failure (`SendAll`). It is then proved equal to three independent filter definitions:

- `Targets`: every snapshot client except the sender;
- `Reached`: the targets whose send succeeded;
- `Survivors`: the list minus the failed targets, in the original order.

Because the whole fan-out runs under one lock, the part of the list the loop has already passed never holds a failed socket. So the guard `if client in clients` holds whenever a failed target is reached, and the removal takes out exactly that entry (`SendAllDrops`). The model still evaluates the guard as the source does.

Some behaviour of the code that is easy to miss:

- The start route does not set the running flag; the loop thread raises it after `listen` (`LoopBegin`). A second start is therefore accepted until the loop has begun (`Scenarios.StartAcceptedBeforeLoopBegins`).
- The stop route only lowers the flag and closes the listening socket; the loop's `finally` clears the client list (`LoopExit`).
- The broadcast route checks for an empty message before it checks the running flag.
- Connect empties the queue before it attempts the connection. A refused or failed connect therefore also discards pending messages.
- After a peer close, the second drain is refused with `NotConnected` rather than returning an empty list.
- A client handler reads only while `is_running` holds, so `Step` ignores a handler receive once the flag is down.

## Model

| member | source | states |
|---|---|---|
| `Seqs.RemoveFirst` | server.py:111-113 | Removing an absent client leaves the list unchanged. Removing a present one takes out its first occurrence and keeps the rest in order, so exactly one occurrence of the client leaves and nothing else changes. |
| `Seqs.RemoveFirstAfter` | server.py:152-153 | When the failed client is absent from the already-processed prefix and heads the rest, the removal takes out exactly that entry. |
| `Seqs.RemoveFirstSubset` | server.py:111-113 | Removal adds nothing: every client left was already in the list. |
| `Seqs.RemoveFirstDistinct` | server.py:152-153 | Removing from a duplicate-free list keeps it duplicate-free. |
| `Seqs.RemoveFirstGone` | server.py:111-113 | In a duplicate-free list, the removed client is gone entirely. |
| `Seqs.DistinctAppend` | server.py:42-43 | Appending a socket not yet registered keeps the list duplicate-free. |
| `RelayServer.TargetsMembers` | server.py:144-146 | The sockets tried by a relay are exactly the snapshot members other than the sender. |
| `RelayServer.ReachedMembers` | server.py:147-148 | The sockets that get the message are exactly the targets whose send did not fail. |
| `RelayServer.SurvivorsMembers` | server.py:149-153 | The pruned list holds exactly the members that are not failed targets. |
| `RelayServer.SendAllFilters` | server.py:143-153 | The loop over the snapshot, with its guarded removals, yields exactly Targets, Reached and the processed prefix followed by Survivors, in order. |
| `RelayServer.FanOutOver` | server.py:124-134 | One locked fan-out attempts every target, reaches the non-failing ones, and leaves exactly the survivors in the list. |
| `RelayServer.TargetsAll` | server.py:127-129 | With no sender to exclude, every client in the snapshot is tried. |
| `RelayServer.BroadcastMessage` | server.py:117-134 | A server broadcast tries every client. Afterwards the list is the old list minus the failed clients, order kept. The clients reached are exactly those still listed. |
| `RelayServer.RelayFromClient` | server.py:137-153 | A relay never tries the sender and tries every other client. Only failed non-senders are pruned, so the sender stays. |
| `RelayServer.AsWrittenAgreesWhenNamesResolve` | server.py:127-134 | When every failing peer still reports its address, the loop as written equals the modelled fan-out and runs to completion. |
| `RelayServer.PeerNameFailureAbortsFanOut` | server.py:127-134 | If `getpeername()` raises inside the handler, a later client is never tried and the failed one is never pruned. |
| `RelayServer.LoopBegin` | server.py:25-29 | Only a successful listen raises the running flag, and the list is untouched. A failing listen goes straight to the shutdown cleanup. |
| `RelayServer.AcceptStep` | server.py:32-58 | An accept appends exactly the new socket at the end and changes nothing else. A timeout or accept error changes nothing. |
| `RelayServer.LoopExit` | server.py:66-76 | Whatever the prior state, the loop's exit leaves the flag down, the list empty and no listening socket. |
| `RelayServer.RelayText` | server.py:96-100 | The relayed line is the sender's address, then ": ", then the received message. |
| `RelayServer.HandleRecv` | server.py:87-107 | Data is relayed, as address plus message: every client but the sender is tried, exactly the non-failing ones are reached, the list becomes the survivors in their old order with the flag and listener untouched, and the handler stays active. An empty read or an error ends the handler and changes no state. |
| `RelayServer.HandlerCleanup` | server.py:110-114 | The handler's cleanup is a no-op for a client already pruned. Otherwise the first occurrence of the client leaves the list and the others keep their order; the client is gone entirely when the list was duplicate-free. |
| `RelayServer.CleanupIdempotent` | server.py:111-113 | On a duplicate-free list, running the cleanup twice is the same as running it once. |
| `RelayServer.StartRoute` | server.py:170-194 | Start succeeds iff the server is not running, ip and port are given, and bind succeeds. It is refused first for running, then for a missing address. A bad port answers `StartFailed` with the state unchanged; a failed bind answers `StartFailed` and leaves an unbound listener. It never changes the flag or the list. |
| `RelayServer.StopRoute` | server.py:197-217 | Stop succeeds iff running. It then lowers the flag and closes the listener, if there is one, leaving the list to the loop. A missing listener stays missing. Otherwise the state is untouched. |
| `RelayServer.BroadcastRoute` | server.py:220-229 | An empty message is refused before the running check. On success the text is the prefix "[SERVER BROADCAST] " plus the message, and every client is tried. The reported count is the size of the pruned list, which equals the number of clients reached. On success the clients reached are exactly the non-failing ones, the list becomes the survivors in their old order, and the flag and listener are untouched. |
| `RelayServer.ReachedAreSurvivors` | server.py:127-134 | In a server broadcast, the clients reached are exactly the clients kept, in order. |
| `RelayServer.StepPreservesValid` | server.py:36-153 | Every transition keeps the client list duplicate-free, given that accepted sockets are new. |
| `RelayServer.RunPreservesValid` | server.py:19-153 | Any interleaving of routes, loop and handler steps keeps the client list duplicate-free. |
| `RelayServer.AcceptsRegisterEach` | server.py:31-51 | After N accepted connections, the list is the old list followed by those N sockets, so it is N longer: none is lost and none is doubled. |
| `ClientBridge.ReceiveStep` | client.py:26-51 | Data is appended and reading goes on. An empty read appends exactly one "[SYSTEM] Server disconnected." and disconnects. An error appends "[SYSTEM] Connection lost." only when still connected. A timeout changes nothing. |
| `ClientBridge.ReceiverExit` | client.py:53-56 | When the receive loop ends, the bridge is disconnected and any socket is closed. The queue is kept. |
| `ClientBridge.ConnectRoute` | client.py:61-93 | Connect succeeds iff not connected, ip and port are given, and the connection is established. The guards and a bad port leave the state as it was; a bad port answers `ConnectFailed`. Once past port parsing, the queue is emptied even if the connection then fails. A refused connection, and only that, answers `ConnectionRefused`, and leaves a disconnected bridge holding the new socket. |
| `ClientBridge.DisconnectRoute` | client.py:96-112 | Disconnect succeeds iff connected. It then lowers the flag and closes the socket but keeps the queue. Otherwise nothing changes. |
| `ClientBridge.SendRoute` | client.py:115-131 | An empty message is refused first, then a disconnected bridge. On a connected bridge a failing send always answers `SendFailed` and lowers the flag, changing nothing else. A good send echoes "Me: " plus the message and changes nothing. |
| `ClientBridge.DrainRoute` | client.py:134-144 | Drain fails iff the bridge is disconnected and the queue is empty. Otherwise it returns the whole queue in arrival order and leaves it empty. |
| `ClientBridge.StepConserves` | client.py:137-142 | For any event but connect, what was drained followed by the new queue equals the old queue followed by the event's arrivals. |
| `ClientBridge.RunConserves` | client.py:26-144 | Across any run without a connect, no inbound message is lost, duplicated or reordered: all drains plus the final queue equal the initial queue plus all arrivals. |
| `ClientBridge.StepPreservesValid` | client.py:64-131 | Every transition keeps "connected implies an open socket". |
| `ClientBridge.RunPreservesValid` | client.py:26-144 | Any run keeps "connected implies an open socket". |
| `Scenarios.EchoExclusion` | server.py:137-153 | A sends "hi": only B is tried and reached. B's next drain ends with a line ending in "hi". |
| `Scenarios.BroadcastThenPrune` | server.py:117-134 | A broadcast reaches both of two clients. After one client's send fails, the next broadcast reaches only the other and the list shrinks to one. |
| `Scenarios.RestartAfterStop` | server.py:66-76 | Stop followed by loop exit empties the list, and a new start is then accepted. |
| `Scenarios.StartAcceptedBeforeLoopBegins` | server.py:173-174 | The start guard reads only the running flag, so a second start succeeds until the loop has raised it, and is refused afterwards. |
| `Scenarios.DrainAfterPeerClose` | client.py:31-36 | After a peer close, one drain returns the queue with the disconnect notice once at its end. The next drain is refused. |
| `Scenarios.NoNoticeAfterUserDisconnect` | client.py:45-51 | A receive error after a user disconnect adds no notice. |

## Left out

- Flask routing, HTTP status codes, JSON bodies, CORS and the `/get_info` hostname lookup are not modelled. Routes return `Ok`/`Err` values. The source reports connect failures with a success status and `Error:` text; the model makes them `Err`.
- Real socket calls (`socket`, `bind`, `listen`, `accept`, `recv`, `send`, `connect`, `close`, `settimeout`) are not modelled. Their outcomes are inputs. `Closed`/`NoListener` states record only which `close` calls happen.
- Threads, the two locks, `join` timeouts and the one-second polling are not modelled. Each locked region is one atomic step, and `Run` applies steps in any order the caller supplies. Interleavings inside a region are not modelled.
- UTF-8 encoding and decoding are not modelled. Messages are strings. In client.py a decode failure is not a `socket.error`, so it escapes `receive_loop` without cleanup; that path is not modelled.
- Python `int()` port parsing and the `__main__` argv handling are not modelled. An invalid port is the `PortInvalid` outcome.
- `print` logging is not modelled.
- `RelayServer.HandleRecv` is one pass of the handler loop. The loop test on `is_running` is applied by `Step`, which reads the flag atomically; the race between the test and a concurrent stop is not modelled.
- `ClientBridge.RunConserves` covers runs without a connect, because a connect deliberately empties the queue.
- `RelayServer.BroadcastMessage` models the fan-out with `getpeername()` succeeding in the `except` handler. The loop as written, where that call can raise, is `SendAllAsWritten` (see Findings).
- `RelayServer.RelayFromClient` models the fan-out with `getpeername()` succeeding. As written, a raising call would leave the loop and end the sender's handler at server.py:102-104, whose cleanup then removes the sender; that route-level effect is not modelled.
- `RelayServer.BroadcastRoute` uses the corrected fan-out. As written, a raising `getpeername()` escapes the route at server.py:228 before the count is reported; that path is not modelled.
- `RelayServer.HandleRecv` relays through the corrected fan-out, not through `SendAllAsWritten`.
- The relayed address text is an input string; Python's tuple formatting of `client_address` is not modelled.

## Findings

| source | as written | input that shows it | evidently intended | confidence | as-written member | corrected member |
|---|---|---|---|---|---|---|
| server.py:130-134 | The `except socket.error` handler calls `client.getpeername()` before it closes and prunes. On a socket whose connection is already reset, that call raises again. The exception leaves the fan-out loop: later clients are never sent the message, and the failed client stays in the list. In a relay, the exception also reaches `handle_client` and ends the sender's own handler. | Clients 1 and 2. The send to 1 fails and `getpeername()` on 1 raises. | Log the failure, close and prune the failed client, and go on with the rest of the snapshot. | medium; depends on the OS reporting the peer as not connected; not executed | `RelayServer.PeerNameFailureAbortsFanOut` | `RelayServer.SendAllFilters` |

=== FILE: client.dfy ===
/** The client bridge of client.py: one outbound connection, a background
    receive loop, and a queue of inbound messages drained by the caller. Each
    region the source runs under `message_lock`, and each route, is one atomic
    step; socket outcomes are inputs. */
module ClientBridge {
  import opened Results

  /** The `client_socket` global. Python's `if client_socket` tests only for
      `None`: a socket object is truthy whether or not it ever connected, and
      still truthy once closed. */
  datatype Socket = NoSocket | Open | Closed

  datatype Client = Client(connected: bool, socket: Socket, queue: seq<string>)

  const ServerDisconnected: string := "[SYSTEM] Server disconnected."
  const ConnectionLost: string := "[SYSTEM] Connection lost."
  const EchoPrefix: string := "Me: "

  /** A connected bridge always holds an open socket. */
  predicate Valid(c: Client) {
    c.connected ==> c.socket == Open
  }

  datatype ClientError =
    | AlreadyConnected | AddressRequired | ConnectionRefused | ConnectFailed
    | NotConnected | MessageRequired | SendFailed

  // ---------------------------------------------------------------------------
  // Receive loop
  // ---------------------------------------------------------------------------

  /** What one `recv(1024)` of the receive loop produced. */
  datatype RecvEvent = Data(msg: string) | EmptyRead | RecvError | RecvTimeout

  datatype Received = Received(state: Client, reading: bool)

  /** One pass of `receive_loop`. Data is queued and the loop goes on; an
      empty read queues the server-disconnected notice and ends the loop; an
      error ends it too, queueing the connection-lost notice only when the
      bridge still believed it was connected; a timeout changes nothing. */
  function ReceiveStep(c: Client, e: RecvEvent): (r: Received)
    ensures r.reading <==> e.Data? || e.RecvTimeout?
    ensures e.Data? ==> r.state == c.(queue := c.queue + [e.msg])
    ensures e.EmptyRead? ==> r.state == c.(connected := false, queue := c.queue + [ServerDisconnected])
    ensures e.RecvError? && c.connected ==> r.state == c.(connected := false, queue := c.queue + [ConnectionLost])
    ensures e.RecvError? && !c.connected ==> r.state == c
    ensures e.RecvTimeout? ==> r.state == c
    ensures r.state.socket == c.socket
  {
    match e
    case Data(m) => Received(c.(queue := c.queue + [m]), true)
    case EmptyRead => Received(c.(connected := false, queue := c.queue + [ServerDisconnected]), false)
    case RecvError =>
      var notice := if c.connected then [ConnectionLost] else [];
      Received(c.(connected := false, queue := c.queue + notice), false)
    case RecvTimeout => Received(c, true)
  }

  /** The end of `receive_loop`: the flag is down and the socket, if any, is
      closed; the queue is kept for a later drain. */
  function ReceiverExit(c: Client): (r: Client)
    ensures !r.connected && r.queue == c.queue
    ensures (r.socket == NoSocket) <==> (c.socket == NoSocket)
    ensures c.socket != NoSocket ==> r.socket == Closed
    ensures Valid(r)
  {
    c.(connected := false, socket := if c.socket == NoSocket then NoSocket else Closed)
  }

  // ---------------------------------------------------------------------------
  // Control routes
  // ---------------------------------------------------------------------------

  /** What `int(port)` and `connect` did. */
  datatype ConnectOutcome = PortInvalid | Refused | Failed | Established

  /** `/connect`: refused when connected or without ip and port, leaving the
      state alone. Past those guards and a valid port the queue is emptied
      before the connection is tried, so a refused attempt also discards the
      pending messages. */
  function ConnectRoute(c: Client, ip: Arg, port: Arg, o: ConnectOutcome): (r: Transition<Client, (), ClientError>)
    ensures r.result.Ok? <==> !c.connected && Given(ip) && Given(port) && o == Established
    ensures c.connected ==> r == Transition(c, Err(AlreadyConnected))
    ensures !c.connected && !(Given(ip) && Given(port)) ==> r == Transition(c, Err(AddressRequired))
    ensures r.result.Ok? ==> r.state.connected && r.state.socket == Open && r.state.queue == []
    ensures !c.connected && Given(ip) && Given(port) && o != PortInvalid ==> r.state.queue == []
    ensures r.result.Err? ==> r.state.connected == c.connected
    ensures !c.connected && Given(ip) && Given(port) && o == PortInvalid ==> r == Transition(c, Err(ConnectFailed))
    ensures r.result == Err(ConnectionRefused) <==> !c.connected && Given(ip) && Given(port) && o == Refused
    ensures !c.connected && Given(ip) && Given(port) && (o == Refused || o == Failed)
            ==> r.state == Client(false, Open, [])
  {
    if c.connected then Transition(c, Err(AlreadyConnected))
    else if !Given(ip) || !Given(port) then Transition(c, Err(AddressRequired))
    else
      match o
      case PortInvalid => Transition(c, Err(ConnectFailed))
      case Refused => Transition(Client(false, Open, []), Err(ConnectionRefused))
      case Failed => Transition(Client(false, Open, []), Err(ConnectFailed))
      case Established => Transition(Client(true, Open, []), Ok(()))
  }

  /** `/disconnect`: refused unless connected; otherwise lowers the flag and
      closes the socket. The queue is not touched. */
  function DisconnectRoute(c: Client): (r: Transition<Client, (), ClientError>)
    ensures r.result.Ok? <==> c.connected
    ensures !c.connected ==> r == Transition(c, Err(NotConnected))
    ensures c.connected && Valid(c) ==> r.state == Client(false, Closed, c.queue)
  {
    if !c.connected then Transition(c, Err(NotConnected))
    else Transition(c.(connected := false, socket := if c.socket == NoSocket then NoSocket else Closed), Ok(()))
  }

  /** `/send`: an empty message is refused first, then a disconnected bridge.
      A failing send lowers the flag and nothing else; a good one echoes the
      message back. */
  function SendRoute(c: Client, message: Arg, sendOk: bool): (r: Transition<Client, string, ClientError>)
    ensures !Given(message) ==> r == Transition(c, Err(MessageRequired))
    ensures Given(message) && !(c.connected && c.socket != NoSocket) ==> r == Transition(c, Err(NotConnected))
    ensures r.result.Ok? <==> Given(message) && c.connected && c.socket != NoSocket && sendOk
    ensures r.result.Ok? ==> r.state == c && r.result.value == EchoPrefix + message.value
    ensures r.result == Err(SendFailed) ==> r.state == c.(connected := false)
    ensures Given(message) && c.connected && c.socket != NoSocket && !sendOk
            ==> r == Transition(c.(connected := false), Err(SendFailed))
  {
    if !Given(message) then Transition(c, Err(MessageRequired))
    else if !c.connected || c.socket == NoSocket then Transition(c, Err(NotConnected))
    else if sendOk then Transition(c, Ok(EchoPrefix + message.value))
    else Transition(c.(connected := false), Err(SendFailed))
  }

  /** `/get_messages`: hands over the whole queue in arrival order and leaves
      it empty. It refuses only when the bridge is disconnected AND nothing is
      queued, so messages that arrived before a disconnect can still be read. */
  function DrainRoute(c: Client): (r: Transition<Client, seq<string>, ClientError>)
    ensures r.result.Err? <==> !c.connected && c.queue == []
    ensures r.result.Err? ==> r == Transition(c, Err(NotConnected))
    ensures r.result.Ok? ==> r.result.value == c.queue && r.state.queue == []
    ensures r.state.connected == c.connected && r.state.socket == c.socket
  {
    if !c.connected && c.queue == [] then Transition(c, Err(NotConnected))
    else Transition(c.(queue := []), Ok(c.queue))
  }

  // ---------------------------------------------------------------------------
  // Runs
  // ---------------------------------------------------------------------------

  /** Everything that can happen to the bridge state, one atomic step each. */
  datatype Event =
    | ConnectCall(ip: Arg, port: Arg, connect: ConnectOutcome)
    | DisconnectCall
    | SendCall(message: Arg, sendOk: bool)
    | DrainCall
    | Recv(recv: RecvEvent)
    | ReceiverStopped

  /** The state after an event and the messages a drain handed out. */
  datatype Stepped = Stepped(state: Client, drained: seq<string>)

  function Step(c: Client, e: Event): Stepped {
    match e
    case ConnectCall(ip, port, o) => Stepped(ConnectRoute(c, ip, port, o).state, [])
    case DisconnectCall => Stepped(DisconnectRoute(c).state, [])
    case SendCall(m, ok) => Stepped(SendRoute(c, m, ok).state, [])
    case DrainCall =>
      var r := DrainRoute(c);
      Stepped(r.state, if r.result.Ok? then r.result.value else [])
    case Recv(ev) =>
      var r := ReceiveStep(c, ev);
      Stepped(if r.reading then r.state else ReceiverExit(r.state), [])
    // the `while is_connected` test fails only once the flag is down
    case ReceiverStopped => Stepped(if c.connected then c else ReceiverExit(c), [])
  }

  /** The messages an event appends to the queue. */
  function Arrivals(c: Client, e: Event): seq<string> {
    match e
    case Recv(Data(m)) => [m]
    case Recv(EmptyRead) => [ServerDisconnected]
    case Recv(RecvError) => if c.connected then [ConnectionLost] else []
    case _ => []
  }

  /** Apart from a connect, every event only appends arrivals to the queue or
      hands its contents to a drain: what was drained followed by what is
      queued is what was queued followed by what arrived. */
  lemma StepConserves(c: Client, e: Event)
    requires !e.ConnectCall?
    ensures Step(c, e).drained + Step(c, e).state.queue == c.queue + Arrivals(c, e)
  {
    match e
    case DrainCall =>
      assert c.queue + [] == c.queue;
    case _ =>
  }

  /** Every event keeps a connected bridge holding an open socket. */
  lemma StepPreservesValid(c: Client, e: Event)
    requires Valid(c)
    ensures Valid(Step(c, e).state)
  {
  }

  function Run(c: Client, es: seq<Event>): Stepped
    decreases |es|
  {
    if es == [] then Stepped(c, [])
    else
      var first := Step(c, es[0]);
      var rest := Run(first.state, es[1..]);
      Stepped(rest.state, first.drained + rest.drained)
  }

  /** All the messages that arrive during a run, in arrival order. */
  function Arrived(c: Client, es: seq<Event>): seq<string>
    decreases |es|
  {
    if es == [] then [] else Arrivals(c, es[0]) + Arrived(Step(c, es[0]).state, es[1..])
  }

  predicate NoConnect(es: seq<Event>) {
    forall i :: 0 <= i < |es| ==> !es[i].ConnectCall?
  }

  /** Between connects no message is lost, duplicated or reordered: the drains
      of a run, followed by what is still queued, are exactly the messages
      queued at the start followed by those that arrived. */
  lemma {:induction false} RunConserves(c: Client, es: seq<Event>)
    requires NoConnect(es)
    ensures Run(c, es).drained + Run(c, es).state.queue == c.queue + Arrived(c, es)
    decreases |es|
  {
    if es == [] {
      assert c.queue + [] == c.queue;
    } else {
      var first := Step(c, es[0]);
      StepConserves(c, es[0]);
      assert NoConnect(es[1..]) by {
        forall i | 0 <= i < |es[1..]| ensures !es[1..][i].ConnectCall? {
          assert es[1..][i] == es[i + 1];
        }
      }
      RunConserves(first.state, es[1..]);
      var rest := Run(first.state, es[1..]);
      assert Run(c, es) == Stepped(rest.state, first.drained + rest.drained);
      assert Arrived(c, es) == Arrivals(c, es[0]) + Arrived(first.state, es[1..]);
      Regroup(first.drained, rest.drained, first.state.queue, rest.state.queue, c.queue,
              Arrivals(c, es[0]), Arrived(first.state, es[1..]));
    }
  }

  /** The concatenation step of `RunConserves`. */
  lemma Regroup(d1: seq<string>, d2: seq<string>, q1: seq<string>, q2: seq<string>, q0: seq<string>, x: seq<string>, y: seq<string>)
    requires d1 + q1 == q0 + x
    requires d2 + q2 == q1 + y
    ensures (d1 + d2) + q2 == q0 + (x + y)
  {
    calc {
      (d1 + d2) + q2;
      d1 + (d2 + q2);
      d1 + (q1 + y);
      (d1 + q1) + y;
      (q0 + x) + y;
    }
  }

  /** Any run from a valid state ends valid. */
  lemma {:induction false} RunPreservesValid(c: Client, es: seq<Event>)
    requires Valid(c)
    ensures Valid(Run(c, es).state)
    decreases |es|
  {
    if es != [] {
      StepPreservesValid(c, es[0]);
      RunPreservesValid(Step(c, es[0]).state, es[1..]);
    }
  }
}

=== FILE: results.dfy ===
/** Result shapes shared by the server relay and the client bridge. */
module Results {

  datatype Option<+T> = None | Some(value: T)

  /** What a control route reports: a value, or the reason it refused. */
  datatype Result<+T, +E> = Ok(value: T) | Err(error: E)

  /** The state a route leaves behind, together with what it reports. */
  datatype Transition<+S, +T, +E> = Transition(state: S, result: Result<T, E>)

  /** A query argument of a control route: `None` when the request omits it. */
  type Arg = Option<string>

  /** Python truthiness of an optional string argument: present and non-empty. */
  predicate Given(a: Arg) {
    a.Some? && a.value != ""
  }
}

=== FILE: scenarios.dfy ===
/** End-to-end behaviour of the relay and the bridge, stated over the two
    state machines together. */
module Scenarios {
  import opened Results
  import opened RelayServer
  import ClientBridge

  /** Clients A and B are connected; A sends "hi". The relay tries only B, B's
      bridge queues the relayed line, and B's next drain ends with a message
      ending in "hi". A is never sent its own message. */
  lemma EchoExclusion(a: Sock, b: Sock, addr: string, bridgeB: ClientBridge.Client)
    requires a != b
    requires bridgeB.connected
    ensures var h := HandleRecv(Server([a, b], true, Bound), a, addr, Received("hi", {}));
            && h.relayed == Some(Delivery(RelayText(addr, "hi"), [b], [b]))
            && h.state.clients == [a, b]
            && a !in h.relayed.value.reached
    ensures var text := RelayText(addr, "hi");
            var got := ClientBridge.DrainRoute(ClientBridge.ReceiveStep(bridgeB, ClientBridge.Data(text)).state).result;
            && got == Ok(bridgeB.queue + [text])
            && got.value[|got.value| - 1][|text| - 2..] == "hi"
  {
    var text := RelayText(addr, "hi");
    assert text[|text| - 2..] == "hi";
    assert [a, b][1..] == [b] && [b][1..] == [];
    assert Targets([a, b], Some(a)) == [b];
    assert Reached([a, b], Some(a), {}) == [b];
    assert Survivors([a, b], Some(a), {}) == [a, b];
  }

  /** A broadcast to two clients reaches both. Once one of them has gone away
      and its send fails, the next broadcast reaches only the other and the
      list shrinks to one. */
  lemma BroadcastThenPrune(a: Sock, b: Sock)
    requires a != b
    ensures var r1 := BroadcastRoute(Server([a, b], true, Bound), Some("notice"), {});
            && r1.result.Ok?
            && r1.result.value.delivery.reached == [a, b]
            && r1.result.value.count == 2
            && var r2 := BroadcastRoute(r1.state, Some("notice"), {a});
               && r2.result.Ok?
               && r2.result.value.delivery.reached == [b]
               && r2.result.value.count == 1
               && r2.state.clients == [b]
  {
    assert [a, b][1..] == [b] && [b][1..] == [];
    assert Reached([a, b], None, {}) == [a, b];
    assert Survivors([a, b], None, {}) == [a, b];
    assert Reached([a, b], None, {a}) == [b];
    assert Survivors([a, b], None, {a}) == [b];
  }

  /** Stopping, then letting the loop run its cleanup, leaves nothing behind:
      the list is empty and a new start with an address is accepted. */
  lemma RestartAfterStop(s: Server, ip: Arg, port: Arg)
    requires s.running && Given(ip) && Given(port)
    ensures var stopped := Step(StopRoute(s).state, LoopExited);
            && stopped.clients == []
            && !stopped.running
            && StartRoute(stopped, ip, port, BindOk).result.Ok?
  {
  }

  /** The start guard reads only the running flag, which the loop thread
      raises later; until it does, a second start is accepted as well. */
  lemma StartAcceptedBeforeLoopBegins(ip: Arg, port: Arg)
    requires Given(ip) && Given(port)
    ensures var first := StartRoute(RelayServer.Initial, ip, port, BindOk);
            && first.result.Ok?
            && StartRoute(first.state, ip, port, BindOk).result.Ok?
    ensures StartRoute(LoopBegin(StartRoute(RelayServer.Initial, ip, port, BindOk).state, true), ip, port, BindOk).result
         == Err(AlreadyRunning)
  {
  }

  /** After the server closes the connection, the next drain returns what was
      queued and the disconnect notice exactly once at its end; the drain after
      that is refused, because the bridge is disconnected and nothing is queued. */
  lemma DrainAfterPeerClose(c: ClientBridge.Client)
    requires c.connected
    ensures var closed := ClientBridge.Step(c, ClientBridge.Recv(ClientBridge.EmptyRead)).state;
            var first := ClientBridge.DrainRoute(closed);
            && !closed.connected
            && first.result == Ok(c.queue + [ClientBridge.ServerDisconnected])
            && ClientBridge.DrainRoute(first.state).result == Err(ClientBridge.NotConnected)
  {
  }

  /** A receive error that follows a user disconnect adds no notice: the
      disconnect already lowered the flag. */
  lemma NoNoticeAfterUserDisconnect(c: ClientBridge.Client)
    requires c.connected
    ensures var gone := ClientBridge.DisconnectRoute(c).state;
            ClientBridge.Step(gone, ClientBridge.Recv(ClientBridge.RecvError)).state.queue == c.queue
  {
  }
}

=== FILE: seqs.dfy ===
/** Facts about the client list as Python manipulates it. */
module Seqs {

  /** No identity occurs twice. */
  predicate Distinct<T(==)>(s: seq<T>) {
    forall i, j :: 0 <= i < j < |s| ==> s[i] != s[j]
  }

  /** Position of the first occurrence of `x`. */
  function IndexOf<T(==)>(s: seq<T>, x: T): (i: nat)
    requires x in s
    ensures i < |s| && s[i] == x && x !in s[..i]
  {
    if s[0] == x then 0
    else
      var j := IndexOf(s[1..], x);
      assert s[..j + 1] == [s[0]] + s[1..][..j];
      1 + j
  }

  /** Python's `list.remove(x)`: drops the first occurrence of `x`. Every call
      in the relay is guarded by `x in list`, so an absent `x` leaves the list
      as it is instead of raising. */
  function RemoveFirst<T(==)>(s: seq<T>, x: T): (r: seq<T>)
    ensures x !in s ==> r == s
    ensures x in s ==> |r| == |s| - 1
    ensures x in s ==> exists i :: 0 <= i < |s| && s[i] == x && x !in s[..i] && r == s[..i] + s[i + 1..]
    ensures multiset(r) == multiset(s) - multiset{x}
  {
    if x in s then
      var i := IndexOf(s, x);
      assert s == s[..i] + [x] + s[i + 1..];
      s[..i] + s[i + 1..]
    else s
  }

  /** When `x` heads `w` and does not occur in `p`, the first occurrence in
      `p + w` is the one right after `p`. */
  lemma RemoveFirstAfter<T>(p: seq<T>, w: seq<T>, x: T)
    requires w != [] && w[0] == x && x !in p
    ensures RemoveFirst(p + w, x) == p + w[1..]
  {
    var s := p + w;
    assert s[|p|] == x;
    assert s[..|p|] == p;
    var i := IndexOf(s, x);
    assert forall k :: 0 <= k < |p| ==> s[k] == p[k];
    assert i == |p|;
    assert s[i + 1..] == w[1..];
  }

  /** Removal adds nothing: every element left was already there. */
  lemma RemoveFirstSubset<T>(s: seq<T>, x: T)
    ensures forall y :: y in RemoveFirst(s, x) ==> y in s
  {
    forall y | y in RemoveFirst(s, x) ensures y in s {
      assert y in multiset(RemoveFirst(s, x));
    }
  }

  /** Removing from a duplicate-free list keeps it duplicate-free. */
  lemma RemoveFirstDistinct<T>(s: seq<T>, x: T)
    requires Distinct(s)
    ensures Distinct(RemoveFirst(s, x))
  {
  }

  /** In a duplicate-free list the removed element is gone entirely. */
  lemma RemoveFirstGone<T>(s: seq<T>, x: T)
    requires Distinct(s)
    ensures x !in RemoveFirst(s, x)
  {
  }

  /** Appending an identity that is not yet present keeps a list duplicate-free. */
  lemma DistinctAppend<T>(s: seq<T>, x: T)
    requires Distinct(s) && x !in s
    ensures Distinct(s + [x])
  {
  }
}

=== FILE: server.dfy ===
/** The socket relay of server.py as a sequential state machine. Every region
    the source runs under `clients_lock` is one atomic step here; sockets are
    bare identities and every socket outcome is an input. */
module RelayServer {
  import opened Results
  import opened Seqs

  /** A connected client socket. Only its identity is observed: the relay
      compares sockets with `==`/`in` and never looks inside them. */
  type Sock = nat

  /** The listening socket held in the `server_socket` global. */
  datatype Listener =
    | NoListener   // `server_socket` is None
    | Unbound      // created by the start route, but `bind` raised
    | Bound        // bound by the start route, listened on by the loop
    | Closed       // closed by the stop route; the loop has not yet cleared it

  datatype Server = Server(clients: seq<Sock>, running: bool, listener: Listener)

  const Initial: Server := Server([], false, NoListener)

  /** Accepted sockets are new objects, so the client list never holds one
      socket twice; every transition keeps it so. */
  predicate Valid(s: Server) {
    Distinct(s.clients)
  }

  datatype ServerError = AlreadyRunning | AddressRequired | StartFailed | NotRunning | MessageRequired

  // ---------------------------------------------------------------------------
  // Fan-out
  // ---------------------------------------------------------------------------

  /** A send to `x` raises and `x` is pruned: it was not the excluded sender
      and its send failed. */
  predicate Dropped(x: Sock, exclude: Option<Sock>, failed: set<Sock>) {
    Some(x) != exclude && x in failed
  }

  /** Reference definition: the sockets a send is attempted on, in list order. */
  function Targets(s: seq<Sock>, exclude: Option<Sock>): (r: seq<Sock>)
    ensures |r| <= |s|
  {
    if s == [] then []
    else (if Some(s[0]) != exclude then [s[0]] else []) + Targets(s[1..], exclude)
  }

  /** Reference definition: the sockets whose send succeeded, in list order. */
  function Reached(s: seq<Sock>, exclude: Option<Sock>, failed: set<Sock>): (r: seq<Sock>)
    ensures |r| <= |s|
  {
    if s == [] then []
    else (if Some(s[0]) != exclude && s[0] !in failed then [s[0]] else []) + Reached(s[1..], exclude, failed)
  }

  /** Reference definition: the list with every dropped socket taken out,
      the others kept in their relative order. */
  function Survivors(s: seq<Sock>, exclude: Option<Sock>, failed: set<Sock>): (r: seq<Sock>)
    ensures |r| <= |s|
  {
    if s == [] then []
    else (if !Dropped(s[0], exclude, failed) then [s[0]] else []) + Survivors(s[1..], exclude, failed)
  }

  /** The sockets tried are the members other than the sender. */
  lemma {:induction false} TargetsMembers(s: seq<Sock>, exclude: Option<Sock>)
    ensures forall x :: x in Targets(s, exclude) <==> x in s && Some(x) != exclude
    decreases |s|
  {
    if s != [] {
      TargetsMembers(s[1..], exclude);
      assert s == [s[0]] + s[1..];
    }
  }

  /** The sockets reached are the members other than the sender whose send
      did not fail. */
  lemma {:induction false} ReachedMembers(s: seq<Sock>, exclude: Option<Sock>, failed: set<Sock>)
    ensures forall x :: x in Reached(s, exclude, failed) <==> x in s && Some(x) != exclude && x !in failed
    decreases |s|
  {
    if s != [] {
      ReachedMembers(s[1..], exclude, failed);
      assert s == [s[0]] + s[1..];
    }
  }

  /** The survivors are the members that were not dropped. */
  lemma {:induction false} SurvivorsMembers(s: seq<Sock>, exclude: Option<Sock>, failed: set<Sock>)
    ensures forall x :: x in Survivors(s, exclude, failed) <==> x in s && !Dropped(x, exclude, failed)
    decreases |s|
  {
    if s != [] {
      SurvivorsMembers(s[1..], exclude, failed);
      assert s == [s[0]] + s[1..];
    }
  }

  /** What one fan-out did: sends attempted, sends that went through, and the
      client list it left behind. */
  datatype FanOut = FanOut(attempted: seq<Sock>, reached: seq<Sock>, clients: seq<Sock>)

  /** The `for client in list(clients)` loop: `todo` is the rest of the
      snapshot, `live` the shared list as the loop has left it so far. A failed
      send closes the socket and removes it when it is still a member. */
  function SendAll(todo: seq<Sock>, exclude: Option<Sock>, failed: set<Sock>, live: seq<Sock>): FanOut
    decreases |todo|
  {
    if todo == [] then FanOut([], [], live)
    else
      var c := todo[0];
      if Some(c) == exclude then SendAll(todo[1..], exclude, failed, live)
      else if c in failed then
        var rest := SendAll(todo[1..], exclude, failed, if c in live then RemoveFirst(live, c) else live);
        rest.(attempted := [c] + rest.attempted)
      else
        var rest := SendAll(todo[1..], exclude, failed, live);
        rest.(attempted := [c] + rest.attempted, reached := [c] + rest.reached)
  }

  /** What the loop did as server.py writes it, and whether it ran to the end. */
  datatype Attempt = Attempt(fanout: FanOut, completed: bool)

  /** The fan-out loop as written: the `except` handler first logs the peer
      address with `getpeername()`, then closes and prunes. On a socket whose
      connection is already gone that call raises too (`nameless`); the second
      exception leaves the loop, so the failing socket stays in the list and
      the rest of the snapshot is never tried. */
  function SendAllAsWritten(todo: seq<Sock>, exclude: Option<Sock>, failed: set<Sock>, nameless: set<Sock>, live: seq<Sock>): Attempt
    decreases |todo|
  {
    if todo == [] then Attempt(FanOut([], [], live), true)
    else
      var c := todo[0];
      if Some(c) == exclude then SendAllAsWritten(todo[1..], exclude, failed, nameless, live)
      else if c in failed && c in nameless then Attempt(FanOut([c], [], live), false)
      else if c in failed then
        var rest := SendAllAsWritten(todo[1..], exclude, failed, nameless, if c in live then RemoveFirst(live, c) else live);
        rest.(fanout := rest.fanout.(attempted := [c] + rest.fanout.attempted))
      else
        var rest := SendAllAsWritten(todo[1..], exclude, failed, nameless, live);
        rest.(fanout := rest.fanout.(attempted := [c] + rest.fanout.attempted, reached := [c] + rest.fanout.reached))
  }

  /** When every failing peer still reports its address, the loop as written
      is the fan-out `SendAll` models. */
  lemma {:induction false} AsWrittenAgreesWhenNamesResolve(todo: seq<Sock>, exclude: Option<Sock>, failed: set<Sock>, nameless: set<Sock>, live: seq<Sock>)
    requires failed !! nameless
    ensures SendAllAsWritten(todo, exclude, failed, nameless, live) == Attempt(SendAll(todo, exclude, failed, live), true)
    decreases |todo|
  {
    if todo != [] {
      var c := todo[0];
      AsWrittenAgreesWhenNamesResolve(todo[1..], exclude, failed, nameless, if c in live then RemoveFirst(live, c) else live);
      AsWrittenAgreesWhenNamesResolve(todo[1..], exclude, failed, nameless, live);
    }
  }

  /** The discrepancy on a concrete input: clients 1 and 2, the send to 1
      fails and its `getpeername()` raises. As written, 2 is never tried and 1
      is never pruned; the intended fan-out tries both and prunes 1. */
  lemma PeerNameFailureAbortsFanOut()
    ensures var w := SendAllAsWritten([1, 2], None, {1}, {1}, [1, 2]);
            && !w.completed
            && w.fanout.attempted == [1]
            && w.fanout.clients == [1, 2]
    ensures SendAll([1, 2], None, {1}, [1, 2]) == FanOut([1, 2], [2], [2])
  {
  }

  /** The loop agrees with the reference definitions: while the prefix already
      processed holds no dropped socket, each failing socket is found exactly at
      its snapshot position and removed there. */
  lemma {:induction false} SendAllFilters(done: seq<Sock>, todo: seq<Sock>, exclude: Option<Sock>, failed: set<Sock>)
    requires forall x :: x in done ==> !Dropped(x, exclude, failed)
    ensures SendAll(todo, exclude, failed, done + todo)
         == FanOut(Targets(todo, exclude), Reached(todo, exclude, failed), done + Survivors(todo, exclude, failed))
    decreases |todo|
  {
    if todo == [] {
      assert done + todo == done;
    } else {
      var c := todo[0];
      var t := todo[1..];
      if Some(c) == exclude {
        SendAllFilters(done + [c], t, exclude, failed);
        SendAllKeepsSender(done, todo, exclude, failed);
      } else if c !in failed {
        SendAllFilters(done + [c], t, exclude, failed);
        SendAllKeepsReached(done, todo, exclude, failed);
      } else {
        SendAllFilters(done, t, exclude, failed);
        SendAllDrops(done, todo, exclude, failed);
      }
    }
  }

  /** The step of `SendAllFilters` for the sender: skipped, and kept. */
  lemma SendAllKeepsSender(done: seq<Sock>, todo: seq<Sock>, exclude: Option<Sock>, failed: set<Sock>)
    requires todo != [] && Some(todo[0]) == exclude
    requires SendAll(todo[1..], exclude, failed, (done + [todo[0]]) + todo[1..])
          == FanOut(Targets(todo[1..], exclude), Reached(todo[1..], exclude, failed),
                    (done + [todo[0]]) + Survivors(todo[1..], exclude, failed))
    ensures SendAll(todo, exclude, failed, done + todo)
         == FanOut(Targets(todo, exclude), Reached(todo, exclude, failed), done + Survivors(todo, exclude, failed))
  {
    var live := done + todo;
    assert live == (done + [todo[0]]) + todo[1..];
    SurvivorsKeeps(done, todo, exclude, failed);
    SendAllSkipsSender(todo, exclude, failed, live);
  }

  /** The step of `SendAllFilters` for a target whose send succeeds: reached,
      and kept. */
  lemma SendAllKeepsReached(done: seq<Sock>, todo: seq<Sock>, exclude: Option<Sock>, failed: set<Sock>)
    requires todo != [] && Some(todo[0]) != exclude && todo[0] !in failed
    requires SendAll(todo[1..], exclude, failed, (done + [todo[0]]) + todo[1..])
          == FanOut(Targets(todo[1..], exclude), Reached(todo[1..], exclude, failed),
                    (done + [todo[0]]) + Survivors(todo[1..], exclude, failed))
    ensures SendAll(todo, exclude, failed, done + todo)
         == FanOut(Targets(todo, exclude), Reached(todo, exclude, failed), done + Survivors(todo, exclude, failed))
  {
    var live := done + todo;
    assert live == (done + [todo[0]]) + todo[1..];
    SurvivorsKeeps(done, todo, exclude, failed);
    SendAllDelivers(todo, exclude, failed, live);
  }

  lemma SurvivorsKeeps(done: seq<Sock>, todo: seq<Sock>, exclude: Option<Sock>, failed: set<Sock>)
    requires todo != [] && !Dropped(todo[0], exclude, failed)
    ensures (done + [todo[0]]) + Survivors(todo[1..], exclude, failed) == done + Survivors(todo, exclude, failed)
  {
  }

  /** Unfolding `SendAll` at the excluded sender. */
  lemma SendAllSkipsSender(todo: seq<Sock>, exclude: Option<Sock>, failed: set<Sock>, live: seq<Sock>)
    requires todo != [] && Some(todo[0]) == exclude
    ensures SendAll(todo, exclude, failed, live) == SendAll(todo[1..], exclude, failed, live)
    ensures Targets(todo, exclude) == Targets(todo[1..], exclude)
    ensures Reached(todo, exclude, failed) == Reached(todo[1..], exclude, failed)
  {
  }

  /** Unfolding `SendAll` at a socket whose send succeeds. */
  lemma SendAllDelivers(todo: seq<Sock>, exclude: Option<Sock>, failed: set<Sock>, live: seq<Sock>)
    requires todo != [] && Some(todo[0]) != exclude && todo[0] !in failed
    ensures var rest := SendAll(todo[1..], exclude, failed, live);
            SendAll(todo, exclude, failed, live) == rest.(attempted := [todo[0]] + rest.attempted, reached := [todo[0]] + rest.reached)
    ensures Targets(todo, exclude) == [todo[0]] + Targets(todo[1..], exclude)
    ensures Reached(todo, exclude, failed) == [todo[0]] + Reached(todo[1..], exclude, failed)
  {
  }

  /** The step of `SendAllFilters` for a socket whose send fails: it is found
      right after the processed prefix and removed there. */
  lemma SendAllDrops(done: seq<Sock>, todo: seq<Sock>, exclude: Option<Sock>, failed: set<Sock>)
    requires todo != [] && Dropped(todo[0], exclude, failed)
    requires forall x :: x in done ==> !Dropped(x, exclude, failed)
    requires SendAll(todo[1..], exclude, failed, done + todo[1..])
          == FanOut(Targets(todo[1..], exclude), Reached(todo[1..], exclude, failed),
                    done + Survivors(todo[1..], exclude, failed))
    ensures SendAll(todo, exclude, failed, done + todo)
         == FanOut(Targets(todo, exclude), Reached(todo, exclude, failed), done + Survivors(todo, exclude, failed))
  {
    var c, t := todo[0], todo[1..];
    var live := done + todo;
    assert c !in done;
    assert live[|done|] == c;
    assert c in live;
    RemoveFirstAfter(done, todo, c);
    assert RemoveFirst(live, c) == done + t;
    var rest := SendAll(t, exclude, failed, done + t);
    assert SendAll(todo, exclude, failed, live) == rest.(attempted := [c] + rest.attempted);
    assert Targets(todo, exclude) == [c] + Targets(t, exclude);
    assert Reached(todo, exclude, failed) == Reached(t, exclude, failed);
    assert Survivors(todo, exclude, failed) == Survivors(t, exclude, failed);
  }

  /** One whole fan-out under the lock, over the snapshot `list(clients)`. */
  function FanOutOver(clients: seq<Sock>, exclude: Option<Sock>, failed: set<Sock>): (f: FanOut)
    ensures f.attempted == Targets(clients, exclude)
    ensures f.reached == Reached(clients, exclude, failed)
    ensures f.clients == Survivors(clients, exclude, failed)
  {
    SendAllFilters([], clients, exclude, failed);
    assert [] + clients == clients;
    SendAll(clients, exclude, failed, clients)
  }

  /** With nobody excluded every client is a target. */
  lemma {:induction false} TargetsAll(s: seq<Sock>)
    ensures Targets(s, None) == s
    decreases |s|
  {
    if s != [] {
      TargetsAll(s[1..]);
      assert s == [s[0]] + s[1..];
    }
  }

  /** A subsequence of a duplicate-free list is duplicate-free. */
  lemma {:induction false} SurvivorsDistinct(s: seq<Sock>, exclude: Option<Sock>, failed: set<Sock>)
    requires Distinct(s)
    ensures Distinct(Survivors(s, exclude, failed))
    decreases |s|
  {
    if s != [] {
      var t := s[1..];
      assert Distinct(t) by {
        forall i, j | 0 <= i < j < |t| ensures t[i] != t[j] {
          assert t[i] == s[i + 1] && t[j] == s[j + 1];
        }
      }
      SurvivorsDistinct(t, exclude, failed);
      SurvivorsMembers(t, exclude, failed);
      var rest := Survivors(t, exclude, failed);
      if !Dropped(s[0], exclude, failed) {
        assert s[0] !in t by {
          forall k | 0 <= k < |t| ensures t[k] != s[0] {
            assert t[k] == s[k + 1];
          }
        }
        assert s[0] !in rest;
        var r := [s[0]] + rest;
        forall i, j | 0 <= i < j < |r| ensures r[i] != r[j] {
          if i == 0 {
            assert r[j] == rest[j - 1];
          } else {
            assert r[i] == rest[i - 1] && r[j] == rest[j - 1];
          }
        }
      } else {
        assert Survivors(s, exclude, failed) == rest;
      }
    }
  }

  /** The text that went out and the sockets it was tried on and reached. */
  datatype Delivery = Delivery(text: string, attempted: seq<Sock>, reached: seq<Sock>)

  datatype Sent = Sent(state: Server, delivery: Delivery)

  /** `broadcast_message`: the text goes to every client in the snapshot, and
      exactly the clients whose send failed leave the list. */
  function BroadcastMessage(s: Server, text: string, failed: set<Sock>): (r: Sent)
    ensures r.delivery.text == text
    ensures r.delivery.attempted == s.clients
    ensures r.delivery.reached == Reached(s.clients, None, failed)
    ensures r.state.clients == Survivors(s.clients, None, failed)
    ensures forall x :: x in r.state.clients <==> x in s.clients && x !in failed
    ensures forall x :: x in r.delivery.reached <==> x in r.state.clients
    ensures r.state.running == s.running && r.state.listener == s.listener
  {
    var f := FanOutOver(s.clients, None, failed);
    TargetsAll(s.clients);
    ReachedAreSurvivors(s.clients, failed);
    SurvivorsMembers(s.clients, None, failed);
    Sent(s.(clients := f.clients), Delivery(text, f.attempted, f.reached))
  }

  /** `broadcast_message_from_client`: the same fan-out with the sender left
      out. The sender is never sent its own message and is never pruned by it. */
  function RelayFromClient(s: Server, sender: Sock, text: string, failed: set<Sock>): (r: Sent)
    ensures r.delivery.text == text
    ensures sender !in r.delivery.attempted
    ensures forall x :: x in r.delivery.attempted <==> x in s.clients && x != sender
    ensures r.delivery.attempted == Targets(s.clients, Some(sender))
    ensures r.delivery.reached == Reached(s.clients, Some(sender), failed)
    ensures r.state.clients == Survivors(s.clients, Some(sender), failed)
    ensures forall x :: x in r.state.clients <==> x in s.clients && (x == sender || x !in failed)
    ensures r.state.running == s.running && r.state.listener == s.listener
  {
    var f := FanOutOver(s.clients, Some(sender), failed);
    TargetsMembers(s.clients, Some(sender));
    SurvivorsMembers(s.clients, Some(sender), failed);
    Sent(s.(clients := f.clients), Delivery(text, f.attempted, f.reached))
  }

  // ---------------------------------------------------------------------------
  // Accept loop
  // ---------------------------------------------------------------------------

  /** What one `accept()` of the polling loop produced. */
  datatype AcceptEvent = Accepted(conn: Sock) | AcceptTimedOut | AcceptFailed

  /** `listen` then `is_running = True`: it is the loop thread, not the start
      route, that raises the flag. A failing `listen` goes straight to the
      loop's cleanup. */
  function LoopBegin(s: Server, listenOk: bool): (r: Server)
    ensures listenOk ==> r.running && r.clients == s.clients && r.listener == s.listener
    ensures !listenOk ==> !r.running && r.clients == [] && r.listener == NoListener
  {
    if listenOk then s.(running := true) else LoopExit(s)
  }

  /** One accept attempt: a new connection is appended to the list; a timeout
      or an accept error changes nothing. */
  function AcceptStep(s: Server, e: AcceptEvent): (r: Server)
    ensures e.Accepted? ==> |r.clients| == |s.clients| + 1
    ensures e.Accepted? ==> r.clients[..|s.clients|] == s.clients && r.clients[|s.clients|] == e.conn
    ensures !e.Accepted? ==> r == s
    ensures r.running == s.running && r.listener == s.listener
  {
    match e
    case Accepted(c) => s.(clients := s.clients + [c])
    case AcceptTimedOut => s
    case AcceptFailed => s
  }

  /** The loop's `finally`: whatever came before, the flag is down, every
      client is closed and dropped, and the listening socket is gone. */
  function LoopExit(s: Server): (r: Server)
    ensures !r.running && r.clients == [] && r.listener == NoListener
    ensures Valid(r)
  {
    Server([], false, NoListener)
  }

  // ---------------------------------------------------------------------------
  // Per-client handler
  // ---------------------------------------------------------------------------

  /** What one `recv(1024)` of a client handler produced. A message carries the
      set of other clients whose relay send fails. */
  datatype RecvEvent = Received(msg: string, failed: set<Sock>) | PeerClosed | RecvFailed

  /** The text relayed for a message from the client at `addr`. */
  function RelayText(addr: string, msg: string): (t: string)
    ensures |t| == |addr| + 2 + |msg|
    ensures t[..|addr|] == addr && t[|t| - |msg|..] == msg
    ensures t[|addr|..|addr| + 2] == ": "
  {
    addr + ": " + msg
  }

  datatype Handled = Handled(state: Server, active: bool, relayed: Option<Delivery>)

  /** One pass of `handle_client`: data is relayed to the other clients and the
      handler stays active; an empty read or a receive error ends it. */
  function HandleRecv(s: Server, conn: Sock, addr: string, e: RecvEvent): (r: Handled)
    ensures r.active <==> e.Received?
    ensures r.relayed.Some? <==> e.Received?
    ensures !e.Received? ==> r.state == s
    ensures e.Received? ==> r.relayed.value.text == RelayText(addr, e.msg)
    ensures e.Received? ==> conn !in r.relayed.value.attempted
    ensures e.Received? ==> r.relayed.value.attempted == Targets(s.clients, Some(conn))
    ensures e.Received? ==> r.relayed.value.reached == Reached(s.clients, Some(conn), e.failed)
    ensures e.Received? ==> forall x :: x in r.state.clients <==> x in s.clients && (x == conn || x !in e.failed)
    ensures e.Received? ==> r.state == s.(clients := Survivors(s.clients, Some(conn), e.failed))
  {
    match e
    case Received(msg, failed) =>
      var sent := RelayFromClient(s, conn, RelayText(addr, msg), failed);
      Handled(sent.state, true, Some(sent.delivery))
    case PeerClosed => Handled(s, false, None)
    case RecvFailed => Handled(s, false, None)
  }

  /** The handler's cleanup: the connection leaves the list if it is still
      there; a connection already pruned by a failed send is left alone. */
  function HandlerCleanup(s: Server, conn: Sock): (r: Server)
    ensures conn !in s.clients ==> r == s
    ensures conn in s.clients ==> |r.clients| == |s.clients| - 1
    ensures conn in s.clients ==> exists i :: 0 <= i < |s.clients| && s.clients[i] == conn && conn !in s.clients[..i]
                                             && r.clients == s.clients[..i] + s.clients[i + 1..]
    ensures forall x :: x in r.clients ==> x in s.clients
    ensures Valid(s) ==> Valid(r) && conn !in r.clients
    ensures r.running == s.running && r.listener == s.listener
  {
    if conn in s.clients then
      var pruned := RemoveFirst(s.clients, conn);
      RemoveFirstSubset(s.clients, conn);
      assert Distinct(s.clients) ==> Distinct(pruned) && conn !in pruned by {
        if Distinct(s.clients) {
          RemoveFirstDistinct(s.clients, conn);
          RemoveFirstGone(s.clients, conn);
        }
      }
      s.(clients := pruned)
    else s
  }

  /** Cleanup twice is cleanup once. */
  lemma CleanupIdempotent(s: Server, conn: Sock)
    requires Valid(s)
    ensures HandlerCleanup(HandlerCleanup(s, conn), conn) == HandlerCleanup(s, conn)
  {
  }

  // ---------------------------------------------------------------------------
  // Control routes
  // ---------------------------------------------------------------------------

  /** What the start route's `int(port)` and `bind` did. */
  datatype StartOutcome = PortInvalid | BindFailed | BindOk

  /** `/start_server`: refused while running or without ip and port. A bound
      socket and a launched loop thread are success, but the flag stays down
      until the loop begins. */
  function StartRoute(s: Server, ip: Arg, port: Arg, o: StartOutcome): (r: Transition<Server, (), ServerError>)
    ensures r.result.Ok? <==> !s.running && Given(ip) && Given(port) && o == BindOk
    ensures s.running ==> r == Transition(s, Err(AlreadyRunning))
    ensures !s.running && !(Given(ip) && Given(port)) ==> r == Transition(s, Err(AddressRequired))
    ensures r.state.running == s.running && r.state.clients == s.clients
    ensures r.result.Ok? ==> r.state.listener == Bound
    ensures r.result == Err(StartFailed) ==> r.state.listener != Bound || r.state == s
    ensures !s.running && Given(ip) && Given(port) && o == PortInvalid ==> r == Transition(s, Err(StartFailed))
    ensures !s.running && Given(ip) && Given(port) && o == BindFailed ==> r == Transition(s.(listener := Unbound), Err(StartFailed))
  {
    if s.running then Transition(s, Err(AlreadyRunning))
    else if !Given(ip) || !Given(port) then Transition(s, Err(AddressRequired))
    else
      match o
      case PortInvalid => Transition(s, Err(StartFailed))
      case BindFailed => Transition(s.(listener := Unbound), Err(StartFailed))
      case BindOk => Transition(s.(listener := Bound), Ok(()))
  }

  /** `/stop_server`: refused unless running; otherwise lowers the flag and
      closes the listening socket. The client list is left to the loop's
      cleanup. */
  function StopRoute(s: Server): (r: Transition<Server, (), ServerError>)
    ensures r.result.Ok? <==> s.running
    ensures !s.running ==> r == Transition(s, Err(NotRunning))
    ensures s.running ==> !r.state.running && r.state.clients == s.clients
    ensures s.running && s.listener != NoListener ==> r.state.listener == Closed
    ensures s.listener == NoListener ==> r.state.listener == NoListener
  {
    if !s.running then Transition(s, Err(NotRunning))
    else
      Transition(s.(running := false, listener := if s.listener == NoListener then NoListener else Closed), Ok(()))
  }

  const BroadcastPrefix: string := "[SERVER BROADCAST] "

  /** What `/broadcast` reports: what went out, and the client count it prints. */
  datatype Report = Report(delivery: Delivery, count: nat)

  /** `/broadcast`: a missing or empty message is refused before the running
      flag is looked at; otherwise the prefixed message goes to every client and
      the reported count is the size of the pruned list. */
  function BroadcastRoute(s: Server, message: Arg, failed: set<Sock>): (r: Transition<Server, Report, ServerError>)
    ensures !Given(message) ==> r == Transition(s, Err(MessageRequired))
    ensures Given(message) && !s.running ==> r == Transition(s, Err(NotRunning))
    ensures r.result.Ok? <==> Given(message) && s.running
    ensures r.result.Ok? ==> r.result.value.delivery.text == BroadcastPrefix + message.value
    ensures r.result.Ok? ==> r.result.value.delivery.attempted == s.clients
    ensures r.result.Ok? ==> r.result.value.count == |r.state.clients| == |r.result.value.delivery.reached|
    ensures r.result.Ok? ==> forall x :: x in r.state.clients <==> x in s.clients && x !in failed
    ensures r.result.Ok? ==> r.state == s.(clients := Survivors(s.clients, None, failed))
    ensures r.result.Ok? ==> r.result.value.delivery.reached == Reached(s.clients, None, failed)
  {
    if !Given(message) then Transition(s, Err(MessageRequired))
    else if !s.running then Transition(s, Err(NotRunning))
    else
      var sent := BroadcastMessage(s, BroadcastPrefix + message.value, failed);
      ReachedAreSurvivors(s.clients, failed);
      Transition(sent.state, Ok(Report(sent.delivery, |sent.state.clients|)))
  }

  /** With nobody excluded, the clients reached are exactly the ones kept. */
  lemma {:induction false} ReachedAreSurvivors(s: seq<Sock>, failed: set<Sock>)
    ensures Reached(s, None, failed) == Survivors(s, None, failed)
    decreases |s|
  {
    if s != [] {
      ReachedAreSurvivors(s[1..], failed);
    }
  }

  // ---------------------------------------------------------------------------
  // Runs
  // ---------------------------------------------------------------------------

  /** Everything that can happen to the relay state, one atomic step each. */
  datatype Event =
    | StartCall(ip: Arg, port: Arg, start: StartOutcome)
    | LoopBegan(listenOk: bool)
    | AcceptDone(accept: AcceptEvent)
    | HandlerRecv(conn: Sock, addr: string, recv: RecvEvent)
    | HandlerDone(conn: Sock)
    | StopCall
    | BroadcastCall(message: Arg, failed: set<Sock>)
    | LoopExited

  function Step(s: Server, e: Event): Server {
    match e
    case StartCall(ip, port, o) => StartRoute(s, ip, port, o).state
    case LoopBegan(ok) => LoopBegin(s, ok)
    case AcceptDone(a) => AcceptStep(s, a)
    // a handler reads only while `is_running` holds
    case HandlerRecv(c, addr, ev) => if s.running then HandleRecv(s, c, addr, ev).state else s
    case HandlerDone(c) => HandlerCleanup(s, c)
    case StopCall => StopRoute(s).state
    case BroadcastCall(m, failed) => BroadcastRoute(s, m, failed).state
    // the `while is_running` test fails only once the flag is down
    case LoopExited => if s.running then s else LoopExit(s)
  }

  /** An accepted socket is a new object, never one already in the list. */
  predicate FreshAccept(s: Server, e: Event) {
    e.AcceptDone? && e.accept.Accepted? ==> e.accept.conn !in s.clients
  }

  function Run(s: Server, es: seq<Event>): Server
    decreases |es|
  {
    if es == [] then s else Run(Step(s, es[0]), es[1..])
  }

  predicate FreshRun(s: Server, es: seq<Event>)
    decreases |es|
  {
    es == [] || (FreshAccept(s, es[0]) && FreshRun(Step(s, es[0]), es[1..]))
  }

  /** Every step keeps the client list duplicate-free. */
  lemma StepPreservesValid(s: Server, e: Event)
    requires Valid(s) && FreshAccept(s, e)
    ensures Valid(Step(s, e))
  {
    match e
    case AcceptDone(a) =>
      if a.Accepted? {
        DistinctAppend(s.clients, a.conn);
      }
    case HandlerRecv(c, addr, ev) =>
      SurvivorsDistinct(s.clients, Some(c), if ev.Received? then ev.failed else {});
    case BroadcastCall(m, failed) =>
      SurvivorsDistinct(s.clients, None, failed);
    case _ =>
  }

  /** Any run from a valid state whose accepts are fresh ends valid. */
  lemma {:induction false} RunPreservesValid(s: Server, es: seq<Event>)
    requires Valid(s) && FreshRun(s, es)
    ensures Valid(Run(s, es))
    decreases |es|
  {
    if es != [] {
      StepPreservesValid(s, es[0]);
      RunPreservesValid(Step(s, es[0]), es[1..]);
    }
  }

  /** The accept events for a sequence of new connections, in order. */
  function Accepts(conns: seq<Sock>): (es: seq<Event>)
    ensures |es| == |conns|
    ensures forall i :: 0 <= i < |conns| ==> es[i] == AcceptDone(Accepted(conns[i]))
  {
    if conns == [] then [] else [AcceptDone(Accepted(conns[0]))] + Accepts(conns[1..])
  }

  /** Unfolding a run at an accepted connection. */
  lemma RunAfterAccept(s: Server, c: Sock, rest: seq<Event>)
    ensures Run(s, [AcceptDone(Accepted(c))] + rest) == Run(s.(clients := s.clients + [c]), rest)
  {
    var es := [AcceptDone(Accepted(c))] + rest;
    assert es[0] == AcceptDone(Accepted(c)) && es[1..] == rest;
    assert Step(s, es[0]) == AcceptStep(s, Accepted(c));
  }

  /** N accepted connections are N registrations: none lost, none doubled. */
  lemma {:induction false} AcceptsRegisterEach(s: Server, conns: seq<Sock>)
    ensures Run(s, Accepts(conns)).clients == s.clients + conns
    ensures |Run(s, Accepts(conns)).clients| == |s.clients| + |conns|
    ensures Run(s, Accepts(conns)).running == s.running
    decreases |conns|
  {
    if conns != [] {
      var s1 := s.(clients := s.clients + [conns[0]]);
      assert Accepts(conns) == [AcceptDone(Accepted(conns[0]))] + Accepts(conns[1..]);
      RunAfterAccept(s, conns[0], Accepts(conns[1..]));
      AcceptsRegisterEach(s1, conns[1..]);
      assert s.clients + [conns[0]] + conns[1..] == s.clients + conns;
    }
  }
}
